=== FILE: README.md ===
# LaptopBatteryStatus — a Dafny model of its decision logic

LaptopBatteryStatus is a RimWorld mod that shows the laptop battery level
under the in-game date and saves the game when the battery drops below a
threshold. This project models the pure decision logic of the mod in Dafny
and proves properties of it:

- **Platform classification** (`OSVariants.cs`). The Windows, OSX and Linux
  flags decide first. On Linux, the `ID` and `VARIANT_ID` entries of
  `/etc/os-release` pick SteamOS, SteamDeck, SteamRT or plain Linux. An
  `IsLinuxLike` test goes with it.
- **The os-release parser** (`OSVariants.ParseOSRelease`). Blank lines and
  `#` comments are skipped. Every other line is searched with the pattern
  `"?([^"=]+)"?\s*=\s*"?([^"=]+)"?`, and each match is added to a dictionary
  that throws on a repeated key. The model is the exact, deterministic outcome
  of .NET's unanchored, backtracking search for that pattern (`MatchAt`,
  `MatchFrom`). It covers the odd cases too: `ID = x` yields the key `"ID "`,
  and `K=   ` yields a one-space value. What a match means is stated as a
  layout of the line (optional quotes, white space, the `=`, the two maximal
  runs). For one start position the model is proved sound, and complete for
  success and for the key. The value it returns is proved to be the one from
  the layout the backtracking matcher tries first (`\s*` as long as
  possible, then the quote if there is one), and that layout fixes the value
  uniquely. The search is proved to return the leftmost start that matches.
- **The refresh and autosave state machine** (`HarmonyPatches.UpdateValuesIfNeeded`,
  release build). It is a state-transition function over
  `(timeToUpdate, cachedPercent, lastPercent, cachedStatus)`. Each tick takes
  one battery reading and the autosave threshold as the settings hold it at
  that moment, since the settings window can change it between ticks. The
  model proves lemmas over n-tick traces: the refresh schedule, exactly when
  a refresh saves, and that a second save needs the battery to be read above
  the threshold again unless the threshold was lowered in between.
- **The label decision** (`HarmonyPatches.BatteryStatus_NearDatePostfix`).
  It picks the colour, the text (the percentage, or "no battery"), whether
  the status tooltip is shown, and the row height taken.
- **The settings window** (`LaptopBatteryStatusMod.DoSettingsWindowContents`).
  The sliders and checkboxes are inputs. The model proves that the two
  clamps leave `CriticalOn <= WarningOn`.
- **The settings record** (`LaptopBatteryStatusSettings`): its defaults, and
  the fallbacks used when loading.

Battery fractions and thresholds are only compared, never computed with, so
they are Dafny `real`s. The countdown is an unbounded `int`. It is proved to
stay within [0, 400], so the 32-bit counter of the source never wraps.

Behaviour the code has, and that the model keeps:

- A repeated key anywhere in `/etc/os-release` makes `Dictionary.Add` throw.
  The `catch` then returns plain Linux, so SteamOS and SteamDeck are not
  detected. In the model the whole parse fails with the repeated key.
- Both autosave comparisons are strict. A refresh whose previous or new
  fraction equals the threshold never saves, so a threshold crossed by
  landing exactly on it is missed.
- From the initial countdown of 0, the first tick already refreshes. After
  n ticks there have been (n + 399) / 400 refreshes.
- Every battery reading comes from the engine's battery query.
- `HarmonyPatches.cs` reads `LaptopBatteryStatusMod.settings.warningOn`,
  `criticalOn`, `autosaveOn`, `greenCharging` and `grayFull`. The settings
  class declares these as `Settings.WarningOn` and so on. The model reads
  them as the same five fields.

Files: `wrappers.dfy` (Option/Result), `os_release.dfy` (module `OSRelease`),
`os_variants.dfy` (module `OSVariants`), `settings.dfy` (module
`BatterySettings`), `settings_window.dfy` (module `SettingsWindow`),
`refresh.dfy` (module `Refresh`), `battery_label.dfy` (module `BatteryLabel`).

## Model

| member | source | states |
|---|---|---|
| OSRelease.RunEnd | Source/LaptopBatteryStatus/OSVariants.cs:64 | the greedy `[^"=]+` run: every character before its end is outside `"`/`=`, and the character at its end is `"`, `=` or the end of the line |
| OSRelease.ValueAt | Source/LaptopBatteryStatus/OSVariants.cs:64 | the value group, when it matches, is a non-empty string with no `"` or `=` |
| OSRelease.MatchAt | Source/LaptopBatteryStatus/OSVariants.cs:64 | a match at one start position has a non-empty key and value, both free of `"` and `=` |
| OSRelease.MatchFrom | Source/LaptopBatteryStatus/OSVariants.cs:64-81 | `Regex.Match` (the leftmost start that succeeds) returns only key/value pairs free of `"` and `=` |
| OSRelease.ValueAtMeaning | Source/LaptopBatteryStatus/OSVariants.cs:64 | the value group `\s*"?([^"=]+)` succeeds iff some layout of white space, an optional quote and a maximal `[^"=]` run fits after the `=`, and what it yields is laid out that way |
| OSRelease.MatchAtSound | Source/LaptopBatteryStatus/OSVariants.cs:64 | a match at a start position is laid out as the pattern says: optional quote, maximal key run, optional quote, white space, `=`, then the value group |
| OSRelease.ValueAtGreedy | Source/LaptopBatteryStatus/OSVariants.cs:64 | the value group returns the run of the greedy layout (longest white space after `=`, then the quote if present), so `K= x` yields `x`, not ` x` |
| OSRelease.GreedyValueUnique | Source/LaptopBatteryStatus/OSVariants.cs:64 | the greedy layout determines the value: at most one value is greedy |
| OSRelease.MatchAtGreedy | Source/LaptopBatteryStatus/OSVariants.cs:64 | wherever a layout of the pattern fits at a start, the match there reports that layout's key and the greedy value after its `=` |
| OSRelease.MatchAtComplete | Source/LaptopBatteryStatus/OSVariants.cs:64 | wherever some layout of the pattern exists at a start (without naming its positions), the pattern succeeds there with that layout's key; the existential corollary of `MatchAtGreedy` |
| OSRelease.FirstFromIsLeftmost | Source/LaptopBatteryStatus/OSVariants.cs:81 | the first-success search finds nothing iff every attempt fails, and otherwise returns the first attempt that succeeds |
| OSRelease.MatchFromNone | Source/LaptopBatteryStatus/OSVariants.cs:81-82 | `Regex.Match` fails iff the pattern fails at every start position |
| OSRelease.MatchFromLeftmost | Source/LaptopBatteryStatus/OSVariants.cs:81-82 | a successful `Regex.Match` is the match at the leftmost start where the pattern succeeds |
| OSRelease.TrimStart | Source/LaptopBatteryStatus/OSVariants.cs:74 | the result is a suffix of the line, only white space was dropped, and it does not start with white space |
| OSRelease.LineEntry | Source/LaptopBatteryStatus/OSVariants.cs:67-83 | a blank or whitespace-only line contributes nothing, and any entry a line yields has a non-empty key and value |
| OSRelease.AddLines | Source/LaptopBatteryStatus/OSVariants.cs:66-85 | the line loop can only fail by meeting a key that is already in the dictionary |
| OSRelease.ParseOSRelease | Source/LaptopBatteryStatus/OSVariants.cs:61-88 | the parse reports an unreadable file exactly when the read failed |
| OSRelease.AddLinesIsAddEntries | Source/LaptopBatteryStatus/OSVariants.cs:67-85 | the loop over lines behaves as adding just the recognised entries, in file order |
| OSRelease.AddEntriesSucceeds | Source/LaptopBatteryStatus/OSVariants.cs:83 | adding entries succeeds iff no entry repeats a key, either an earlier entry's or one already present |
| OSRelease.AddEntriesContents | Source/LaptopBatteryStatus/OSVariants.cs:83 | after a successful addition the dictionary holds exactly the earlier keys plus every entry's key, each entry's key mapped to its value |
| OSRelease.AddEntriesFailure | Source/LaptopBatteryStatus/OSVariants.cs:83 | a failed addition names a key that some entry repeats |
| OSRelease.ParseMeaning | Source/LaptopBatteryStatus/OSVariants.cs:61-88 | a readable file parses iff its recognised entries have distinct keys; the map then holds exactly those keys with their values; otherwise the error names a key two entries share |
| OSRelease.CommentLineIgnored | Source/LaptopBatteryStatus/OSVariants.cs:74-78 | a line whose first non-blank character is `#` contributes nothing |
| OSRelease.SkippedLineChangesNothing | Source/LaptopBatteryStatus/OSVariants.cs:67-85 | inserting a blank, comment or unmatched line anywhere leaves the parse result unchanged |
| OSRelease.PlainLineEntry | Source/LaptopBatteryStatus/OSVariants.cs:64-83 | `KEY=VALUE` and `KEY="VALUE"` (neither part containing `"` or `=`, neither starting with white space, the key not starting with `#`) yield KEY with VALUE, quotes removed |
| OSRelease.QuotedLineEntry | Source/LaptopBatteryStatus/OSVariants.cs:64-83 | `"KEY"="VALUE"` and `"KEY" = "VALUE"`, with any white space around `=`, yield KEY with VALUE: quotes, white space and `=` belong to neither group |
| OSRelease.SpaceAfterEqualsSkipped | Source/LaptopBatteryStatus/OSVariants.cs:64-83 | `KEY=<white space>VALUE` yields KEY with VALUE: white space after `=` belongs to neither group |
| OSRelease.SpaceBeforeEqualsStaysInKey | Source/LaptopBatteryStatus/OSVariants.cs:64 | `ID = steamos` yields the key `"ID "` (with the space), so it is not the `ID` key |
| OSVariants.Lookup | Source/LaptopBatteryStatus/OSVariants.cs:38 | `GetValueOrDefault` finds a value exactly when the key is present, and that value is the one stored |
| OSVariants.ClassifyLinux | Source/LaptopBatteryStatus/OSVariants.cs:35-54 | a parse that threw gives plain Linux; every result is Linux or one of the three Steam variants |
| OSVariants.IsLinuxLike | Source/LaptopBatteryStatus/OSVariants.cs:90-96 | Linux-like means anything but Windows, OSX and Unknown |
| OSVariants.GetRuntimeOS | Source/LaptopBatteryStatus/OSVariants.cs:21-59 | Windows wins over everything; then OSX; no flag gives Unknown; the result is Linux-like iff only the Linux flag holds; an unreadable file on Linux gives plain Linux |
| OSVariants.LinuxClassification | Source/LaptopBatteryStatus/OSVariants.cs:33-54 | on Linux, the result is the platform the lines describe. A repeated key gives Linux. `ID=steamos` gives SteamDeck iff `VARIANT_ID=steamdeck`, and SteamOS otherwise. `ID=steamrt` gives SteamRT. Anything else gives Linux |
| OSVariants.RepeatedKeyGivesLinux | Source/LaptopBatteryStatus/OSVariants.cs:35-83 | appending a line that repeats an earlier key makes the result plain Linux, whatever the file says |
| OSVariants.RepeatedKeyDisablesSteamDetection | Source/LaptopBatteryStatus/OSVariants.cs:38-83 | a Steam Deck descriptor gives SteamDeck, and the same descriptor with its `ID` line repeated gives Linux |
| BatterySettings.Load | Source/LaptopBatteryStatus/LaptopBatteryStatusSettings.cs:13-21 | each field takes its stored value when its key is present, and otherwise the initialiser of that field, independently of the other fields |
| BatterySettings.DefaultsAreOrdered | Source/LaptopBatteryStatus/LaptopBatteryStatusSettings.cs:7-11 | the defaults are 0.25 / 0.1 / 0 and true / true; critical is at or below warning, and both are in [0.01, 1] |
| BatterySettings.LoadFallbackIsDefaults | Source/LaptopBatteryStatus/LaptopBatteryStatusSettings.cs:7-20 | the load-time fallbacks equal the field initialisers for all five fields |
| BatterySettings.LoadStoredRoundTrip | Source/LaptopBatteryStatus/LaptopBatteryStatusSettings.cs:16-20 | loading a file holding every field gives those fields back |
| SettingsWindow.ClampCritical | Source/LaptopBatteryStatus/LaptopBatteryStatusMod.cs:37 | the first clamp only lowers `CriticalOn`, and only to `WarningOn` |
| SettingsWindow.RaiseWarning | Source/LaptopBatteryStatus/LaptopBatteryStatusMod.cs:46 | the second clamp only raises `WarningOn`, and only to `CriticalOn` |
| SettingsWindow.DoSettingsWindowContents | Source/LaptopBatteryStatus/LaptopBatteryStatusMod.cs:26-74 | for any slider results, `CriticalOn <= WarningOn` afterwards; `AutosaveOn` is what its own slider returns; each switch flips exactly when its checkbox is clicked |
| SettingsWindow.WindowKeepsThresholdsInRange | Source/LaptopBatteryStatus/LaptopBatteryStatusMod.cs:34-46 | whenever both sliders return values in [0.01, 1] (an untouched slider returns what it was shown), both thresholds end in [0.01, 1] with critical at or below warning, whatever the loaded thresholds were |
| SettingsWindow.CriticalDragWins | Source/LaptopBatteryStatus/LaptopBatteryStatusMod.cs:42-46 | a dragged critical value is kept, and the warning threshold is raised to it when needed |
| SettingsWindow.IdleWindowNormalises | Source/LaptopBatteryStatus/LaptopBatteryStatusMod.cs:34-46 | an untouched pass leaves ordered settings unchanged, and otherwise only lowers critical to warning |
| SettingsWindow.IdleWindowIdempotent | Source/LaptopBatteryStatus/LaptopBatteryStatusMod.cs:34-60 | a second untouched pass changes nothing |
| SettingsWindow.ThresholdSlidersLeaveOthersAlone | Source/LaptopBatteryStatus/LaptopBatteryStatusMod.cs:34-60 | the warning and critical sliders never change `AutosaveOn`, `GreenCharging` or `GrayFull` |
| Refresh.Initial | Source/LaptopBatteryStatus/HarmonyPatches.cs:15-24 | the static constructor caches the first reading, leaves `lastPercent` at zero and sets the countdown to 0, so the first tick refreshes |
| Refresh.UpdateValuesIfNeeded | Source/LaptopBatteryStatus/HarmonyPatches.cs:30-65 | the countdown stays in [1, 400] once in range; a save needs a refresh and leaves the cached fraction below the threshold; a non-refreshing tick only decrements the countdown and never saves |
| Refresh.RefreshingTick | Source/LaptopBatteryStatus/HarmonyPatches.cs:38-64 | a refresh resets the countdown to 400. It moves the old cached fraction to `lastPercent` before caching the new reading. It saves iff previous > threshold > new |
| Refresh.ExactThresholdNeverSaves | Source/LaptopBatteryStatus/HarmonyPatches.cs:60-61 | a previous or new fraction exactly at the threshold never saves |
| Refresh.CountdownStaysInRange | Source/LaptopBatteryStatus/HarmonyPatches.cs:18-38 | every state reached from a countdown in [0, 400] keeps it there |
| Refresh.CountdownSchedule | Source/LaptopBatteryStatus/HarmonyPatches.cs:24-38 | from countdown t, the first refresh comes on tick max(t, 1), then every 400 ticks; the countdown and refresh count after n ticks are given in closed form |
| Refresh.RefreshCountFromStart | Source/LaptopBatteryStatus/HarmonyPatches.cs:24-38 | from the initial state, n ticks perform (n + 399) / 400 refreshes |
| Refresh.CachedSinceRefresh | Source/LaptopBatteryStatus/HarmonyPatches.cs:32-58 | between two refreshes the cached fraction is the one the earlier refresh read |
| Refresh.SaveAfterRefresh | Source/LaptopBatteryStatus/HarmonyPatches.cs:38-61 | at a refresh following an earlier one with none between, the game saves iff the threshold read at that tick lies strictly between the earlier reading and the new one; so a lowered threshold can save twice in a row |
| Refresh.StaysDisarmed | Source/LaptopBatteryStatus/HarmonyPatches.cs:58-61 | after a save, the cached fraction stays at or below any bound at or above that save's threshold until a refresh reads above the bound, whatever thresholds the ticks between read |
| Refresh.SaveNeedsRecharge | Source/LaptopBatteryStatus/HarmonyPatches.cs:58-64 | between two saves whose thresholds did not go down, some refresh reads a fraction above the later threshold |
| Refresh.NoSaveOnConsecutiveRefreshes | Source/LaptopBatteryStatus/HarmonyPatches.cs:60-61 | two refreshes with no refresh between them never both save unless the threshold was lowered between them |
| BatteryLabel.PercentColour | Source/LaptopBatteryStatus/HarmonyPatches.cs:102-120 | green iff charging with `greenCharging`, gray iff full with `grayFull`; otherwise red below critical, then yellow below warning, else the start colour |
| BatteryLabel.LabelFor | Source/LaptopBatteryStatus/HarmonyPatches.cs:74-144 | a negative fraction shows only the gray "no battery" text without a tooltip; otherwise the percentage is shown in the colour `PercentColour` picks, and the tooltip iff the status is not Unknown |
| BatteryLabel.NearDatePostfix | Source/LaptopBatteryStatus/HarmonyPatches.cs:67-147 | every draw runs one tick first and lowers `curBaseY` by exactly the row height 24 |
| BatteryLabel.ColourMatchesPriority | Source/LaptopBatteryStatus/HarmonyPatches.cs:102-120 | the source's sequence of overwrites equals the priority list green, gray, red, yellow, start colour |
| BatteryLabel.RedImpliesBelowWarning | Source/LaptopBatteryStatus/HarmonyPatches.cs:102-110 | whenever critical is at or below warning (in [0.01, 1] or not, as a hand-edited settings file may give), a red label is always below the warning threshold too |
| BatteryLabel.LabelStableBetweenRefreshes | Source/LaptopBatteryStatus/HarmonyPatches.cs:32-36 | a tick that does not refresh draws the same label as the state it started from |
| BatteryLabel.LabelShowsFreshReading | Source/LaptopBatteryStatus/HarmonyPatches.cs:38-59 | after a refresh the label shows the reading just taken |

## Left out

- Harmony patch registration in the static constructor (`HarmonyPatches.cs:25-27`). It is plumbing into a foreign library.
- All drawing: rectangles, fonts, anchors, highlighting, `Widgets.Label`,
  `Mouse.IsOver`, `TooltipHandler` and the version label. Only the decisions
  are kept (colour, text, tooltip shown, row height).
- The `#if DEBUG` branch of `UpdateValuesIfNeeded`. It uses a random status and float arithmetic and is not part of the release build.
- `SystemInfo.batteryLevel` and `SystemInfo.batteryStatus` are not modelled as calls. Each tick takes a `Reading` input instead.
- `RuntimeInformation.IsOSPlatform` is not modelled as a call. Its answers are the `PlatformFlags` input.
- `File.ReadAllLines` is not modelled as a call. Its result is an `Option<seq<string>>` input, with `None` when it throws. Its splitting of the file into lines is not modelled.
- `GameDataSaveLoader.SaveGame`, `Translate` and `ToStringPercent`. The save is the `saveTriggered` flag, and file names and texts are not modelled.
- `Log.Warning` and `Log.Message`. Logging has no effect on any result.
- `Scribe_Values` persistence, `Settings.Write()`, `VersionFromManifest` and `SettingsCategory`. These are library I/O. Only the load-time fallbacks are modelled, as `Load`.
- The `Widgets.HorizontalSlider` implementation. A slider either returns the value it was shown (`Keep`) or any value (`Drag`). Any clamping or rounding the slider does itself is not modelled, so range results assume in-range slider values.
- `CheckboxLabeled` is modelled as toggling its field when clicked.
- Floating point is not modelled. Fractions and thresholds are reals, so `0.1f` and `0.25f` are exactly 0.1 and 0.25, and NaN is not a possible value.
- `line.StartsWith("#")` uses the current culture in .NET, which can ignore some zero-width characters. It is modelled as an ordinal test of the first character.
- Calling `GetRuntimeOS` once and caching its result is not modelled. No caller of it is part of this model.

=== FILE: battery_label.dfy ===
/**
 The label drawn under the in-game date (`HarmonyPatches.BatteryStatus_NearDatePostfix`,
 release build), reduced to its decisions: which colour, which text, whether
 a status tooltip is attached, and how far the next row moves up.
 Fonts, rectangles, highlighting and localisation are not part of the model.
 */
module BatteryLabel {
  import opened Refresh
  import opened BatterySettings

  /** The label's text colour; `StartColour` is whatever colour was active
      before the postfix ran. */
  datatype Colour = StartColour | Yellow | Red | Green | Gray

  /** Which text the label shows. */
  datatype LabelText = NoBatteryText | PercentText(percent: real)

  /** Everything the postfix decides about its one row. */
  datatype Label = Label(colour: Colour, text: LabelText, showTooltip: bool)

  /** The height of the row the label takes, subtracted from `curBaseY`. */
  const RowHeight: real := 24.0

  /** The colour assignments of the source, in their order: yellow below the
      warning threshold, then red below the critical one, then the status
      switch (green while charging, gray when full) overriding both. */
  function PercentColour(percent: real, status: BatteryStatus, settings: Settings): (c: Colour)
    ensures c == Green <==> status == Charging && settings.greenCharging
    ensures c == Gray <==> status == Full && settings.grayFull
    ensures c == Red <==> !(status == Charging && settings.greenCharging)
                          && !(status == Full && settings.grayFull)
                          && percent < settings.criticalOn
    ensures c == Yellow <==> !(status == Charging && settings.greenCharging)
                             && !(status == Full && settings.grayFull)
                             && !(percent < settings.criticalOn) && percent < settings.warningOn
    ensures c == StartColour <==> !(status == Charging && settings.greenCharging)
                                  && !(status == Full && settings.grayFull)
                                  && !(percent < settings.criticalOn) && !(percent < settings.warningOn)
  {
    var c0 := StartColour;
    var c1 := if percent < settings.warningOn then Yellow else c0;
    var c2 := if percent < settings.criticalOn then Red else c1;
    match status
    case Charging => if settings.greenCharging then Green else c2
    case Full => if settings.grayFull then Gray else c2
    case _ => c2
  }

  /** The label for a cached reading. A negative fraction (no battery) shows
      only the gray "no battery" text without a tooltip; otherwise the
      percentage is shown in the chosen colour, with a tooltip naming the
      status unless the status is unknown. */
  function LabelFor(percent: real, status: BatteryStatus, settings: Settings): (l: Label)
    ensures percent < 0.0 <==> l.text == NoBatteryText
    ensures percent < 0.0 ==> l.colour == Gray && !l.showTooltip
    ensures percent >= 0.0 ==> l.text == PercentText(percent)
    ensures l.showTooltip <==> percent >= 0.0 && status != Unknown
    ensures percent >= 0.0 ==> l.colour == PercentColour(percent, status, settings)
  {
    if percent < 0.0 then Label(Gray, NoBatteryText, false)
    else Label(PercentColour(percent, status, settings), PercentText(percent), status != Unknown)
  }

  /** What one call of the postfix produces. */
  datatype PostfixResult = PostfixResult(tick: TickResult, shown: Label, curBaseY: real)

  /** The postfix: one tick of the refresh state machine, then the label for
      the (possibly refreshed) cached values; every call takes one row. */
  function NearDatePostfix(s: RefreshState, reading: Reading, settings: Settings, curBaseY: real): (r: PostfixResult)
    ensures r.curBaseY == curBaseY - RowHeight
    ensures r.tick == UpdateValuesIfNeeded(s, reading, settings.autosaveOn)
  {
    var tick := UpdateValuesIfNeeded(s, reading, settings.autosaveOn);
    PostfixResult(tick, LabelFor(tick.state.cachedPercent, tick.state.cachedStatus, settings), curBaseY - RowHeight)
  }

  /** The colour rules as a priority list, highest first: the enabled status
      colour, then red, then yellow, then the start colour. */
  function ColourByPriority(percent: real, status: BatteryStatus, settings: Settings): Colour {
    if status == Charging && settings.greenCharging then Green
    else if status == Full && settings.grayFull then Gray
    else if percent < settings.criticalOn then Red
    else if percent < settings.warningOn then Yellow
    else StartColour
  }

  /** The sequence of overwrites in the source agrees with the priority list
      on every input. */
  lemma ColourMatchesPriority(percent: real, status: BatteryStatus, settings: Settings)
    ensures PercentColour(percent, status, settings) == ColourByPriority(percent, status, settings)
  {
  }

  /** With critical at or below warning (in range or not), a fraction below
      critical is also below warning, so red always replaces a yellow that was
      set first. */
  lemma RedImpliesBelowWarning(percent: real, status: BatteryStatus, settings: Settings)
    requires settings.criticalOn <= settings.warningOn
    requires PercentColour(percent, status, settings) == Red
    ensures percent < settings.warningOn
  {
  }

  /** Between refreshes the label does not change: a tick that does not
      refresh draws exactly the label of the state it started from. */
  lemma LabelStableBetweenRefreshes(s: RefreshState, reading: Reading, settings: Settings, curBaseY: real)
    requires !Refreshes(s)
    ensures NearDatePostfix(s, reading, settings, curBaseY).shown == LabelFor(s.cachedPercent, s.cachedStatus, settings)
  {
  }

  /** After a refresh the label shows the reading just taken. */
  lemma LabelShowsFreshReading(s: RefreshState, reading: Reading, settings: Settings, curBaseY: real)
    requires Refreshes(s)
    ensures NearDatePostfix(s, reading, settings, curBaseY).shown == LabelFor(reading.level, reading.status, settings)
  {
  }
}

=== FILE: os_release.dfy ===
/**
 The parser for the Linux release descriptor `/etc/os-release`
 (`OSVariants.ParseOSRelease`).

 Each line is filtered (blank lines and `#` comments are skipped) and then
 searched with the pattern

     "?([^"=]+)"?\s*=\s*"?([^"=]+)"?

 which is NOT anchored: the first position at which the backtracking matcher
 succeeds wins. `MatchAt` below is the deterministic outcome of that matcher at
 one start position, worked out case by case:

 - an optional opening quote is taken whenever the line has one there (without
   it the key class cannot start on a quote);
 - the key is the maximal run of characters other than `"` and `=`; giving
   characters back never helps, because the `=` the pattern needs can only sit
   right after the run, or after a closing quote and whitespace;
 - after `=` and the greedy whitespace, the value is the maximal run after an
   optional quote; if nothing can start there, the matcher backs off one
   whitespace character and that single character becomes the value.

 Every `Dictionary.Add` of a key already present throws; the whole parse then
 fails, which is the `Failure(DuplicateKey(_))` result here.
 */
module OSRelease {
  import opened Wrappers

  /** One `KEY=VALUE` pair recognised on a line (the pattern's two groups). */
  datatype Entry = Entry(key: string, value: string)

  /** Why parsing the descriptor failed: the read failed, or `Add` met a repeated key. */
  datatype ParseError = Unreadable | DuplicateKey(key: string)

  /** The characters .NET counts as white space, both for `Char.IsWhiteSpace`
      (used by `IsNullOrWhiteSpace` and `TrimStart`, OSVariants.cs:69 and :74)
      and for the pattern class `\s` (OSVariants.cs:64):
      U+0009 to U+000D, U+0085 and the Unicode space, line and paragraph separators. */
  predicate IsWhiteSpace(c: char) {
    || ('\t' <= c <= '\r')
    || c == ' '
    || c == '\U{85}'
    || c == '\U{A0}'
    || c == '\U{1680}'
    || ('\U{2000}' <= c <= '\U{200A}')
    || c == '\U{2028}'
    || c == '\U{2029}'
    || c == '\U{202F}'
    || c == '\U{205F}'
    || c == '\U{3000}'
  }

  /** A character of the pattern class `[^"=]`. */
  predicate IsTokenChar(c: char) {
    c != '"' && c != '='
  }

  /** A non-empty string made only of `[^"=]` characters. */
  predicate IsToken(t: string) {
    |t| > 0 && forall i :: 0 <= i < |t| ==> IsTokenChar(t[i])
  }

  /** End of the maximal `[^"=]` run starting at `i`. */
  function RunEnd(s: string, i: nat): (e: nat)
    requires i <= |s|
    ensures i <= e <= |s|
    ensures forall k :: i <= k < e ==> IsTokenChar(s[k])
    ensures e == |s| || !IsTokenChar(s[e])
    decreases |s| - i
  {
    if i < |s| && IsTokenChar(s[i]) then RunEnd(s, i + 1) else i
  }

  /** A run that starts on a `[^"=]` character is a token. */
  lemma RunIsToken(s: string, i: nat)
    requires i < |s| && IsTokenChar(s[i])
    ensures IsToken(s[i .. RunEnd(s, i)])
  {
  }

  /** End of the maximal white-space run starting at `i` (the greedy `\s*`). */
  function SkipSpace(s: string, i: nat): (w: nat)
    requires i <= |s|
    ensures i <= w <= |s|
    ensures forall k :: i <= k < w ==> IsWhiteSpace(s[k])
    ensures w == |s| || !IsWhiteSpace(s[w])
    decreases |s| - i
  {
    if i < |s| && IsWhiteSpace(s[i]) then SkipSpace(s, i + 1) else i
  }

  /** The value group, matched from just after the `=` at position `i - 1`:
      `\s*"?([^"=]+)"?` with backtracking. */
  function ValueAt(s: string, i: nat): (r: Option<string>)
    requires i <= |s|
    ensures r.Some? ==> IsToken(r.value)
  {
    var w := SkipSpace(s, i);
    if w + 1 < |s| && s[w] == '"' && IsTokenChar(s[w + 1]) then
      RunIsToken(s, w + 1);
      Some(s[w + 1 .. RunEnd(s, w + 1)])
    else if w < |s| && IsTokenChar(s[w]) then
      RunIsToken(s, w);
      Some(s[w .. RunEnd(s, w)])
    else if i < w then
      // \s* gives back its last character, which the value class accepts
      Some(s[w - 1 .. w])
    else
      None
  }

  /** The position of the `=` that may follow a key run ending at `e`:
      either right there, or after a closing quote and white space. */
  function EqualsAfterKey(s: string, e: nat): (q: nat)
    requires e <= |s|
    ensures e <= q <= |s|
  {
    if e < |s| && s[e] == '=' then e
    else if e < |s| && s[e] == '"' then SkipSpace(s, e + 1)
    else |s|
  }

  /** The outcome of the pattern tried at start position `p`. */
  function MatchAt(s: string, p: nat): (r: Option<Entry>)
    requires p < |s|
    ensures r.Some? ==> IsToken(r.value.key) && IsToken(r.value.value)
  {
    var k := if s[p] == '"' then p + 1 else p;
    var e := RunEnd(s, k);
    var q := EqualsAfterKey(s, e);
    if e == k || q == |s| || s[q] != '=' then None
    else
      match ValueAt(s, q + 1)
      case None => None
      case Some(v) => Some(Entry(s[k .. e], v))
  }

  /** `Regex.Match`: the first start position, from `p` on, where the pattern succeeds. */
  function MatchFrom(s: string, p: nat): (r: Option<Entry>)
    requires p <= |s|
    ensures r.Some? ==> IsToken(r.value.key) && IsToken(r.value.value)
    decreases |s| - p
  {
    if p == |s| then None
    else
      match MatchAt(s, p)
      case Some(m) => Some(m)
      case None => MatchFrom(s, p + 1)
  }

  /** `string.IsNullOrWhiteSpace` at OSVariants.cs:69 (a line read from a file
      is never null). */
  predicate IsBlank(line: string) {
    forall i :: 0 <= i < |line| ==> IsWhiteSpace(line[i])
  }

  /** `string.TrimStart()`: drops the leading white space. */
  function TrimStart(line: string): (t: string)
    ensures |t| <= |line| && t == line[|line| - |t|..]
    ensures forall i :: 0 <= i < |line| - |t| ==> IsWhiteSpace(line[i])
    ensures |t| > 0 ==> !IsWhiteSpace(t[0])
  {
    line[SkipSpace(line, 0)..]
  }

  /** What one line of the file contributes: nothing for a blank line or a
      comment, otherwise the first match of the pattern, if any. */
  function LineEntry(fullLine: string): (r: Option<Entry>)
    ensures IsBlank(fullLine) ==> r.None?
    ensures r.Some? ==> IsToken(r.value.key) && IsToken(r.value.value)
  {
    if IsBlank(fullLine) then None
    else
      var line := TrimStart(fullLine);
      if line[0] == '#' then None else MatchFrom(line, 0)
  }

  /** The entries the lines yield, in file order: the reference the parser is
      proved against. */
  function Entries(lines: seq<string>): (es: seq<Entry>)
    ensures |es| <= |lines|
  {
    if lines == [] then []
    else
      match LineEntry(lines[0])
      case None => Entries(lines[1..])
      case Some(e) => [e] + Entries(lines[1..])
  }

  /** The loop of `ParseOSRelease`: `Add` every recognised entry to `acc`,
      throwing on the first key that is already present. */
  function AddLines(acc: map<string, string>, lines: seq<string>): (r: Result<map<string, string>, ParseError>)
    ensures r.Failure? ==> r.error.DuplicateKey?
    decreases |lines|
  {
    if lines == [] then Success(acc)
    else
      match LineEntry(lines[0])
      case None => AddLines(acc, lines[1..])
      case Some(e) =>
        if e.key in acc then Failure(DuplicateKey(e.key))
        else AddLines(acc[e.key := e.value], lines[1..])
  }

  /** `ParseOSRelease`: `file` is the outcome of `File.ReadAllLines`, `None`
      when the read threw. */
  function ParseOSRelease(file: Option<seq<string>>): (r: Result<map<string, string>, ParseError>)
    ensures file.None? <==> r == Failure(Unreadable)
  {
    match file
    case None => Failure(Unreadable)
    case Some(lines) => AddLines(map[], lines)
  }

  // ---------------------------------------------------------------------------
  // The reference meaning of a parse, in terms of the entries alone

  /** No two entries share a key. */
  ghost predicate DistinctKeys(es: seq<Entry>) {
    forall i, j :: 0 <= i < j < |es| ==> es[i].key != es[j].key
  }

  /** The keys the entries mention. */
  ghost function KeysOf(es: seq<Entry>): set<string> {
    set i | 0 <= i < |es| :: es[i].key
  }

  /** Adding entries one by one, as the loop does, from an arbitrary start. */
  function AddEntries(acc: map<string, string>, es: seq<Entry>): Result<map<string, string>, ParseError>
    decreases |es|
  {
    if es == [] then Success(acc)
    else if es[0].key in acc then Failure(DuplicateKey(es[0].key))
    else AddEntries(acc[es[0].key := es[0].value], es[1..])
  }

  /** The line loop only ever sees the recognised entries. */
  lemma {:induction false} AddLinesIsAddEntries(acc: map<string, string>, lines: seq<string>)
    ensures AddLines(acc, lines) == AddEntries(acc, Entries(lines))
    decreases |lines|
  {
    if lines != [] {
      AddLinesIsAddEntries(acc, lines[1..]);
      match LineEntry(lines[0])
      case None =>
      case Some(e) =>
        assert Entries(lines) == [e] + Entries(lines[1..]);
        assert ([e] + Entries(lines[1..]))[1..] == Entries(lines[1..]);
        if e.key !in acc {
          AddLinesIsAddEntries(acc[e.key := e.value], lines[1..]);
        }
    }
  }

  /** The keys of a non-empty entry list: the head's and the tail's. */
  lemma KeysOfCons(es: seq<Entry>)
    requires es != []
    ensures KeysOf(es) == {es[0].key} + KeysOf(es[1..])
  {
    var rest := es[1..];
    forall k | k in KeysOf(es) ensures k in {es[0].key} + KeysOf(rest) {
      var i :| 0 <= i < |es| && es[i].key == k;
      if i > 0 { assert rest[i - 1].key == k; }
    }
    forall k | k in KeysOf(rest) ensures k in KeysOf(es) {
      var i :| 0 <= i < |rest| && rest[i].key == k;
      assert es[i + 1].key == k;
    }
  }

  /** No repeated key among `es` and `acc` together, split at the head entry. */
  lemma FreshKeysCons(acc: map<string, string>, es: seq<Entry>)
    requires es != [] && es[0].key !in acc
    ensures DistinctKeys(es) && KeysOf(es) !! acc.Keys
        <==> DistinctKeys(es[1..]) && KeysOf(es[1..]) !! acc[es[0].key := es[0].value].Keys
  {
    var e, rest := es[0], es[1..];
    var acc' := acc[e.key := e.value];
    KeysOfCons(es);
    if DistinctKeys(es) && KeysOf(es) !! acc.Keys {
      forall i | 0 <= i < |rest| ensures rest[i].key != e.key {
        assert es[i + 1] == rest[i];
      }
      forall i, j | 0 <= i < j < |rest| ensures rest[i].key != rest[j].key {
        assert es[i + 1] == rest[i] && es[j + 1] == rest[j];
      }
    }
    if DistinctKeys(rest) && KeysOf(rest) !! acc'.Keys {
      forall i, j | 0 <= i < j < |es| ensures es[i].key != es[j].key {
        assert es[j] == rest[j - 1];
        if i > 0 { assert es[i] == rest[i - 1]; }
        else { assert es[j].key in KeysOf(rest); }
      }
    }
  }

  /** Adding entries succeeds exactly when no entry repeats a key, either an
      earlier entry's or one already in `acc`. */
  lemma {:induction false} AddEntriesSucceeds(acc: map<string, string>, es: seq<Entry>)
    ensures AddEntries(acc, es).Success? <==> DistinctKeys(es) && KeysOf(es) !! acc.Keys
    decreases |es|
  {
    if es == [] {
      assert KeysOf(es) == {};
    } else if es[0].key in acc {
      KeysOfCons(es);
    } else {
      FreshKeysCons(acc, es);
      AddEntriesSucceeds(acc[es[0].key := es[0].value], es[1..]);
    }
  }

  /** A successful addition holds `acc` plus every entry, and nothing else. */
  lemma {:induction false} AddEntriesContents(acc: map<string, string>, es: seq<Entry>)
    requires AddEntries(acc, es).Success?
    ensures AddEntries(acc, es).value.Keys == acc.Keys + KeysOf(es)
    ensures forall k :: k in acc ==> AddEntries(acc, es).value[k] == acc[k]
    ensures forall i :: 0 <= i < |es| ==> AddEntries(acc, es).value[es[i].key] == es[i].value
    decreases |es|
  {
    if es == [] {
      assert KeysOf(es) == {};
    } else {
      var acc' := acc[es[0].key := es[0].value];
      var rest := es[1..];
      AddEntriesContents(acc', rest);
      KeysOfCons(es);
      var m := AddEntries(acc', rest).value;
      forall i | 0 <= i < |es| ensures m[es[i].key] == es[i].value {
        if i > 0 { assert es[i] == rest[i - 1]; }
      }
    }
  }

  /** A failed addition names a key that some entry repeats. */
  lemma {:induction false} AddEntriesFailure(acc: map<string, string>, es: seq<Entry>)
    requires AddEntries(acc, es).Failure?
    ensures exists j :: (0 <= j < |es| && AddEntries(acc, es) == Failure(DuplicateKey(es[j].key))
                         && (es[j].key in acc || exists i :: 0 <= i < j && es[i].key == es[j].key))
    decreases |es|
  {
    if es[0].key !in acc {
      var acc' := acc[es[0].key := es[0].value];
      var rest := es[1..];
      AddEntriesFailure(acc', rest);
      var j :| 0 <= j < |rest| && AddEntries(acc', rest) == Failure(DuplicateKey(rest[j].key))
        && (rest[j].key in acc' || exists i :: 0 <= i < j && rest[i].key == rest[j].key);
      assert es[j + 1] == rest[j];
      if rest[j].key in acc' && rest[j].key !in acc {
        assert es[0].key == es[j + 1].key;
      } else if rest[j].key !in acc' {
        var i :| 0 <= i < j && rest[i].key == rest[j].key;
        assert es[i + 1] == rest[i];
      }
    }
  }

  /** The parse of a readable file, stated against its entries: it fails only
      on a key that two entries share, and otherwise maps every entry's key to
      its value and holds nothing else. */
  lemma ParseMeaning(lines: seq<string>)
    ensures ParseOSRelease(Some(lines)).Success? <==> DistinctKeys(Entries(lines))
    ensures ParseOSRelease(Some(lines)).Success? ==>
      var m := ParseOSRelease(Some(lines)).value;
      && m.Keys == KeysOf(Entries(lines))
      && forall i :: 0 <= i < |Entries(lines)| ==> m[Entries(lines)[i].key] == Entries(lines)[i].value
    ensures ParseOSRelease(Some(lines)).Failure? ==>
      exists i, j :: 0 <= i < j < |Entries(lines)|
        && Entries(lines)[i].key == Entries(lines)[j].key
        && ParseOSRelease(Some(lines)) == Failure(DuplicateKey(Entries(lines)[j].key))
  {
    var es := Entries(lines);
    AddLinesIsAddEntries(map[], lines);
    AddEntriesSucceeds(map[], es);
    if AddEntries(map[], es).Success? {
      AddEntriesContents(map[], es);
    } else {
      AddEntriesFailure(map[], es);
    }
  }

  // ---------------------------------------------------------------------------
  // Which lines contribute what

  /** A line whose first non-blank character is `#` contributes nothing. */
  lemma CommentLineIgnored(line: string)
    requires !IsBlank(line) && TrimStart(line)[0] == '#'
    ensures LineEntry(line).None?
  {
  }

  /** The entries of concatenated line blocks are the concatenated entries. */
  lemma {:induction false} EntriesAppend(a: seq<string>, b: seq<string>)
    ensures Entries(a + b) == Entries(a) + Entries(b)
    decreases |a|
  {
    if a != [] {
      assert (a + b)[0] == a[0];
      assert (a + b)[1..] == a[1..] + b;
      EntriesAppend(a[1..], b);
    } else {
      assert a + b == b;
    }
  }

  /** Inserting a line that contributes nothing (blank, comment, or not matched)
      anywhere in the file leaves the parse unchanged. */
  lemma SkippedLineChangesNothing(a: seq<string>, line: string, b: seq<string>)
    requires LineEntry(line).None?
    ensures ParseOSRelease(Some(a + [line] + b)) == ParseOSRelease(Some(a + b))
  {
    EntriesAppend(a, [line] + b);
    EntriesAppend([line], b);
    EntriesAppend(a, b);
    assert a + [line] + b == a + ([line] + b);
    assert Entries([line]) == [] by {
      assert [line][1..] == [];
    }
    AddLinesIsAddEntries(map[], a + [line] + b);
    AddLinesIsAddEntries(map[], a + b);
  }

  // ---------------------------------------------------------------------------
  // What a match means: the layout of the line around the two groups

  /** `s[i..j]` is white space only (a `\s*` match). */
  ghost predicate AllSpace(s: string, i: nat, j: nat) {
    i <= j <= |s| && forall k :: i <= k < j ==> IsWhiteSpace(s[k])
  }

  /** `s[i..j]` is the optional quote `"?`: empty, or one quote. */
  ghost predicate OptionalQuote(s: string, i: nat, j: nat) {
    j == i || (j == i + 1 && i < |s| && s[i] == '"')
  }

  /** `t` is a non-empty `[^"=]` run of `s` starting at `i` that cannot be
      extended: the character after it is `"`, `=` or the end of the line. */
  ghost predicate RunAt(s: string, i: nat, t: string) {
    IsToken(t) && i + |t| <= |s| && s[i .. i + |t|] == t
    && (i + |t| == |s| || !IsTokenChar(s[i + |t|]))
  }

  /** From `i`, the line reads white space up to `b`, an optional quote up to
      `v0`, and then the maximal run `value`: `\s*"?([^"=]+)`. */
  ghost predicate ValueLayout(s: string, i: nat, b: nat, v0: nat, value: string) {
    AllSpace(s, i, b) && OptionalQuote(s, b, v0) && RunAt(s, v0, value)
  }

  /** Some layout of the value group starting at `i` yields `value`. */
  ghost predicate ReadsAsValue(s: string, i: nat, value: string) {
    exists b: nat, v0: nat :: ValueLayout(s, i, b, v0, value)
  }

  /** From `p`, the line reads an optional quote up to `k0`, the maximal run
      `e.key`, an optional quote up to `a`, white space up to the `=` at `q`,
      and then the value group yielding `e.value`:
      `"?([^"=]+)"?\s*=\s*"?([^"=]+)`. */
  ghost predicate PairLayout(s: string, p: nat, k0: nat, a: nat, q: nat, b: nat, v0: nat, e: Entry) {
    OptionalQuote(s, p, k0) && RunAt(s, k0, e.key)
    && OptionalQuote(s, k0 + |e.key|, a) && AllSpace(s, a, q) && q < |s| && s[q] == '='
    && ValueLayout(s, q + 1, b, v0, e.value)
  }

  /** Some layout of the whole pattern starting at `p` yields `e`. */
  ghost predicate ReadsAsEntry(s: string, p: nat, e: Entry) {
    exists k0: nat, a: nat, q: nat, b: nat, v0: nat :: PairLayout(s, p, k0, a, q, b, v0, e)
  }

  /** The value group succeeds exactly when some layout fits, and what it
      yields is laid out that way. */
  lemma ValueAtMeaning(s: string, i: nat)
    requires i <= |s|
    ensures ValueAt(s, i).Some? ==> ReadsAsValue(s, i, ValueAt(s, i).value)
    ensures (exists value :: ReadsAsValue(s, i, value)) ==> ValueAt(s, i).Some?
  {
    var w := SkipSpace(s, i);
    if w + 1 < |s| && s[w] == '"' && IsTokenChar(s[w + 1]) {
      assert ValueLayout(s, i, w, w + 1, ValueAt(s, i).value);
    } else if w < |s| && IsTokenChar(s[w]) {
      assert ValueLayout(s, i, w, w, ValueAt(s, i).value);
    } else if i < w {
      assert ValueLayout(s, i, w - 1, w - 1, ValueAt(s, i).value);
    }
    if value :| ReadsAsValue(s, i, value) {
      ValueAtComplete(s, i, value);
    }
  }

  /** The value group cannot fail where some layout of it fits. */
  lemma ValueAtComplete(s: string, i: nat, value: string)
    requires i <= |s| && ReadsAsValue(s, i, value)
    ensures ValueAt(s, i).Some?
  {
    var b: nat, v0: nat :| ValueLayout(s, i, b, v0, value);
    if SkipSpace(s, i) == i {
      assert b == i;
      assert s[v0] == value[0];
    }
  }

  /** The layout the backtracking matcher tries first among those that fit:
      `\s*` takes as much white space as it can, and then `"?` takes the
      quote when there is one. */
  ghost predicate GreedyLayout(s: string, i: nat, b: nat, v0: nat, value: string) {
    ValueLayout(s, i, b, v0, value)
    && forall b': nat, v0': nat, v': string :: ValueLayout(s, i, b', v0', v') ==> b' < b || (b' == b && v0' <= v0)
  }

  /** `value` is what the value group yields from `i`: the run of the
      greedy layout. */
  ghost predicate IsGreedyValue(s: string, i: nat, value: string) {
    exists b: nat, v0: nat :: GreedyLayout(s, i, b, v0, value)
  }

  /** The value group returns the value of the greedy layout, so `K= x`
      yields `x` and not ` x`. */
  lemma ValueAtGreedy(s: string, i: nat)
    requires i <= |s|
    ensures ValueAt(s, i).Some? ==> IsGreedyValue(s, i, ValueAt(s, i).value)
  {
    var w := SkipSpace(s, i);
    if ValueAt(s, i).Some? {
      var v := ValueAt(s, i).value;
      var b: nat, v0: nat;
      if w + 1 < |s| && s[w] == '"' && IsTokenChar(s[w + 1]) {
        b, v0 := w, w + 1;
      } else if w < |s| && IsTokenChar(s[w]) {
        b, v0 := w, w;
      } else {
        b, v0 := w - 1, w - 1;
      }
      assert ValueLayout(s, i, b, v0, v);
      forall b': nat, v0': nat, v': string | ValueLayout(s, i, b', v0', v')
        ensures b' < b || (b' == b && v0' <= v0)
      {
        assert b' <= w;
        if b' == w {
          assert s[v0'] == v'[0];
        }
      }
      assert GreedyLayout(s, i, b, v0, v);
    }
  }

  /** The greedy layout determines the value: two greedy values are equal. */
  lemma GreedyValueUnique(s: string, i: nat, v1: string, v2: string)
    requires IsGreedyValue(s, i, v1) && IsGreedyValue(s, i, v2)
    ensures v1 == v2
  {
    var b1: nat, v01: nat :| GreedyLayout(s, i, b1, v01, v1);
    var b2: nat, v02: nat :| GreedyLayout(s, i, b2, v02, v2);
    assert b1 == b2 && v01 == v02;
    RunEndIs(s, v01, v01 + |v1|);
    RunEndIs(s, v01, v01 + |v2|);
  }

  /** Wherever a layout of the pattern fits at `p`, the match there reports
      its key and the greedy value after its `=`. */
  lemma MatchAtGreedy(s: string, p: nat, k0: nat, a: nat, q: nat, b: nat, v0: nat, en: Entry)
    requires p < |s| && PairLayout(s, p, k0, a, q, b, v0, en)
    ensures MatchAt(s, p).Some? && MatchAt(s, p).value.key == en.key
    ensures IsGreedyValue(s, q + 1, MatchAt(s, p).value.value)
  {
    MatchAtOfLayout(s, p, k0, a, q, b, v0, en);
    ValueAtGreedy(s, q + 1);
  }

  /** A match at `p` is laid out as the pattern says. */
  lemma MatchAtSound(s: string, p: nat)
    requires p < |s|
    ensures MatchAt(s, p).Some? ==> ReadsAsEntry(s, p, MatchAt(s, p).value)
  {
    if MatchAt(s, p).Some? {
      var k := if s[p] == '"' then p + 1 else p;
      var e := RunEnd(s, k);
      var q := EqualsAfterKey(s, e);
      PairLayoutOfMatch(s, p, k, e, q, MatchAt(s, p).value);
    }
  }

  /** The positions `MatchAt` computes form a layout of the pattern. */
  lemma PairLayoutOfMatch(s: string, p: nat, k: nat, e: nat, q: nat, m: Entry)
    requires p < |s| && k == (if s[p] == '"' then p + 1 else p)
    requires k < e == RunEnd(s, k) && q == EqualsAfterKey(s, e) < |s| && s[q] == '='
    requires m.key == s[k .. e] && ValueAt(s, q + 1) == Some(m.value)
    ensures ReadsAsEntry(s, p, m)
  {
    var b: nat, v0: nat :| ValueLayout(s, q + 1, b, v0, m.value) by {
      ValueAtMeaning(s, q + 1);
    }
    var a := if s[e] == '=' then e else e + 1;
    assert OptionalQuote(s, e, a) && AllSpace(s, a, q);
    assert RunAt(s, k, m.key);
    assert PairLayout(s, p, k, a, q, b, v0, m);
  }

  /** The pattern fails at `p` only when no layout fits, and the key of every
      layout that fits is the key the match reports: `MatchAtGreedy` for a
      layout known only to exist. */
  lemma MatchAtComplete(s: string, p: nat, en: Entry)
    requires p < |s|
    requires ReadsAsEntry(s, p, en)
    ensures MatchAt(s, p).Some? && MatchAt(s, p).value.key == en.key
  {
    var k0: nat, a: nat, q: nat, b: nat, v0: nat :| PairLayout(s, p, k0, a, q, b, v0, en);
    MatchAtGreedy(s, p, k0, a, q, b, v0, en);
  }

  /** The match at `p` given one layout of the pattern there. */
  lemma MatchAtOfLayout(s: string, p: nat, k0: nat, a: nat, q: nat, b: nat, v0: nat, en: Entry)
    requires p < |s| && PairLayout(s, p, k0, a, q, b, v0, en)
    ensures MatchAt(s, p).Some? && MatchAt(s, p).value.key == en.key
    ensures ValueAt(s, q + 1).Some? && MatchAt(s, p).value.value == ValueAt(s, q + 1).value
  {
    var e := k0 + |en.key|;
    assert k0 == (if s[p] == '"' then p + 1 else p) && RunEnd(s, k0) == e
        && EqualsAfterKey(s, e) == q by {
      LayoutFixesPositions(s, p, k0, a, q, b, v0, en);
    }
    assert ValueAt(s, q + 1).Some? by {
      assert ReadsAsValue(s, q + 1, en.value);
      ValueAtMeaning(s, q + 1);
    }
    assert s[k0 .. e] == en.key;
    MatchAtPositions(s, p, k0, e, q);
  }

  /** `MatchAt` succeeds when its key run is non-empty, an `=` follows it and
      the value group matches after that `=`. */
  lemma MatchAtPositions(s: string, p: nat, k: nat, e: nat, q: nat)
    requires p < |s| && k == (if s[p] == '"' then p + 1 else p)
    requires k < e == RunEnd(s, k) && q == EqualsAfterKey(s, e) < |s| && s[q] == '='
    requires ValueAt(s, q + 1).Some?
    ensures MatchAt(s, p) == Some(Entry(s[k .. e], ValueAt(s, q + 1).value))
  {
  }

  /** Any layout of the pattern at `p` has its key, and its `=`, where
      `MatchAt` looks for them. */
  lemma LayoutFixesPositions(s: string, p: nat, k0: nat, a: nat, q: nat, b: nat, v0: nat, en: Entry)
    requires p < |s| && PairLayout(s, p, k0, a, q, b, v0, en)
    ensures k0 == (if s[p] == '"' then p + 1 else p)
    ensures RunEnd(s, k0) == k0 + |en.key| && EqualsAfterKey(s, k0 + |en.key|) == q
  {
    assert s[k0] == en.key[0];
    var e := k0 + |en.key|;
    RunEndIs(s, k0, e);
    if a != e {
      SkipSpaceIs(s, a, q);
    }
  }

  /** The outcome at the first start from `p` on, below `n`, at which
      `attempt` succeeds; nothing when it fails at all of them. */
  function FirstFrom(attempt: nat -> Option<Entry>, p: nat, n: nat): Option<Entry>
    decreases n - p
  {
    if p >= n then None
    else if attempt(p).Some? then attempt(p)
    else FirstFrom(attempt, p + 1, n)
  }

  /** `FirstFrom` is absent exactly when every attempt fails, and otherwise
      it is the outcome of the first attempt that succeeds. */
  lemma {:induction false} FirstFromIsLeftmost(attempt: nat -> Option<Entry>, p: nat, n: nat)
    ensures FirstFrom(attempt, p, n).None? <==> forall i :: p <= i < n ==> attempt(i).None?
    ensures FirstFrom(attempt, p, n).Some? ==>
      exists i :: p <= i < n && attempt(i) == FirstFrom(attempt, p, n)
        && forall j :: p <= j < i ==> attempt(j).None?
    decreases n - p
  {
    if p < n && attempt(p).None? {
      FirstFromIsLeftmost(attempt, p + 1, n);
    }
  }

  /** The pattern tried at every start of `s`. */
  ghost function Attempt(s: string): nat -> Option<Entry> {
    (i: nat) => if i < |s| then MatchAt(s, i) else None
  }

  /** `Regex.Match` is the first successful attempt from `p` on. */
  lemma {:induction false} MatchFromIsFirst(s: string, p: nat)
    requires p <= |s|
    ensures MatchFrom(s, p) == FirstFrom(Attempt(s), p, |s|)
    decreases |s| - p
  {
    if p < |s| {
      MatchFromIsFirst(s, p + 1);
      assert Attempt(s)(p) == MatchAt(s, p);
      assert MatchFrom(s, p) == if MatchAt(s, p).Some? then MatchAt(s, p) else MatchFrom(s, p + 1);
    }
  }

  /** `Regex.Match` finds nothing exactly when the pattern fails at every
      start from `p` on. */
  lemma MatchFromNone(s: string, p: nat)
    requires p <= |s|
    ensures MatchFrom(s, p).None? <==> forall i :: p <= i < |s| ==> MatchAt(s, i).None?
  {
    MatchFromIsFirst(s, p);
    FirstFromIsLeftmost(Attempt(s), p, |s|);
    assert forall i :: p <= i < |s| ==> Attempt(s)(i) == MatchAt(s, i);
  }

  /** What `Regex.Match` finds is the match at the leftmost start, from `p`
      on, where the pattern succeeds. */
  lemma MatchFromLeftmost(s: string, p: nat)
    requires p <= |s|
    ensures MatchFrom(s, p).Some? ==>
      exists i :: p <= i < |s| && MatchAt(s, i) == MatchFrom(s, p)
        && forall j :: p <= j < i ==> MatchAt(s, j).None?
  {
    MatchFromIsFirst(s, p);
    FirstFromIsLeftmost(Attempt(s), p, |s|);
    assert forall i :: p <= i < |s| ==> Attempt(s)(i) == MatchAt(s, i);
  }

  /** `SkipSpace` stops exactly at the first character that is not white space. */
  lemma SkipSpaceIs(s: string, i: nat, j: nat)
    requires i <= j <= |s|
    requires forall k :: i <= k < j ==> IsWhiteSpace(s[k])
    requires j == |s| || !IsWhiteSpace(s[j])
    ensures SkipSpace(s, i) == j
  {
  }

  // ---------------------------------------------------------------------------
  // Well-formed lines

  /** A key as it appears at the start of a well-formed line. */
  predicate IsPlainKey(key: string) {
    IsToken(key) && !IsWhiteSpace(key[0]) && key[0] != '#'
  }

  /** A value with no leading white space (the pattern would skip it). */
  predicate IsPlainValue(value: string) {
    IsToken(value) && !IsWhiteSpace(value[0])
  }

  /** `RunEnd` stops exactly at the first character outside `[^"=]`. */
  lemma RunEndIs(s: string, i: nat, j: nat)
    requires i <= j <= |s|
    requires forall k :: i <= k < j ==> IsTokenChar(s[k])
    requires j == |s| || !IsTokenChar(s[j])
    ensures RunEnd(s, i) == j
  {
  }

  /** The value found after `=` in `rest`, when `rest` is `value` or `"value"`. */
  lemma ValueOfPlain(s: string, i: nat, value: string, quoted: bool)
    requires IsPlainValue(value)
    requires i <= |s|
    requires s[i..] == if quoted then "\"" + value + "\"" else value
    ensures ValueAt(s, i) == Some(value)
  {
    if quoted {
      assert s[i] == '"' && !IsWhiteSpace(s[i]);
      assert SkipSpace(s, i) == i;
      assert s[i + 1] == value[0];
      RunEndIs(s, i + 1, i + 1 + |value|);
      assert s[i + 1 .. i + 1 + |value|] == value;
    } else {
      assert s[i] == value[0];
      assert SkipSpace(s, i) == i;
      RunEndIs(s, i, |s|);
      assert s[i .. |s|] == value;
    }
  }

  /** A line `KEY=VALUE` or `KEY="VALUE"` adds KEY with VALUE, quotes removed. */
  lemma PlainLineEntry(key: string, value: string, quoted: bool)
    requires IsPlainKey(key) && IsPlainValue(value)
    ensures LineEntry(key + "=" + (if quoted then "\"" + value + "\"" else value)) == Some(Entry(key, value))
  {
    var v := if quoted then "\"" + value + "\"" else value;
    var line := key + "=" + v;
    assert line[0] == key[0];
    assert !IsBlank(line);
    assert SkipSpace(line, 0) == 0;
    assert TrimStart(line) == line;
    RunEndIs(line, 0, |key|);
    assert line[0..|key|] == key;
    assert line[|key|] == '=';
    assert line[|key| + 1..] == v;
    ValueOfPlain(line, |key| + 1, value, quoted);
    assert MatchAt(line, 0) == Some(Entry(key, value));
  }

  /** A line `"KEY"<sp>=<sp>"VALUE"`, with any white space `sp1`, `sp2`
      (possibly none) around the `=`, yields KEY with VALUE: the quotes, the
      white space and the `=` belong to neither group. */
  lemma QuotedLineEntry(key: string, value: string, sp1: string, sp2: string)
    requires IsToken(key) && IsToken(value) && IsBlank(sp1) && IsBlank(sp2)
    ensures LineEntry("\"" + key + "\"" + sp1 + "=" + sp2 + "\"" + value + "\"") == Some(Entry(key, value))
  {
    var line := "\"" + key + "\"" + sp1 + "=" + sp2 + "\"" + value + "\"";
    var e := 1 + |key|;
    var q := e + 1 + |sp1|;
    var w := q + 1 + |sp2|;
    assert |line| == w + |value| + 2;
    assert line[0] == '"' && line[e] == '"' && line[q] == '=' && line[w] == '"';
    assert line[w + 1 + |value|] == '"';
    assert line[1 .. e] == key;
    assert line[w + 1 .. w + 1 + |value|] == value;
    assert AllSpace(line, e + 1, q) by {
      assert line[e + 1 .. q] == sp1;
    }
    assert AllSpace(line, q + 1, w) by {
      assert line[q + 1 .. w] == sp2;
    }
    QuotedMatch(line, key, value, e, q, w);
    LineStartsMatch(line);
  }

  /** A line that starts with neither white space nor `#` is searched as it
      stands, and a match at its first character is what it contributes. */
  lemma LineStartsMatch(line: string)
    requires |line| > 0 && !IsWhiteSpace(line[0]) && line[0] != '#' && MatchAt(line, 0).Some?
    ensures LineEntry(line) == MatchAt(line, 0)
  {
    assert !IsBlank(line) && SkipSpace(line, 0) == 0;
  }

  /** The match on a line laid out as `"KEY"<sp>=<sp>"VALUE"`, given by positions. */
  lemma QuotedMatch(line: string, key: string, value: string, e: nat, q: nat, w: nat)
    requires IsToken(key) && IsToken(value)
    requires e == 1 + |key| < q < w && |line| == w + |value| + 2
    requires line[0] == '"' && line[e] == '"' && line[q] == '=' && line[w] == '"'
    requires line[w + 1 + |value|] == '"'
    requires line[1 .. e] == key && line[w + 1 .. w + 1 + |value|] == value
    requires AllSpace(line, e + 1, q) && AllSpace(line, q + 1, w)
    ensures MatchAt(line, 0) == Some(Entry(key, value))
  {
    QuotedKey(line, 1, e, q);
    QuotedValue(line, q + 1, w, value);
    MatchAtPositions(line, 0, 1, e, q);
  }

  /** A key run from `k` closed by a quote at `e`, then white space up to an
      `=` at `q`. */
  lemma QuotedKey(line: string, k: nat, e: nat, q: nat)
    requires k < e < q < |line|
    requires forall i :: k <= i < e ==> IsTokenChar(line[i])
    requires line[e] == '"' && line[q] == '=' && AllSpace(line, e + 1, q)
    ensures RunEnd(line, k) == e && EqualsAfterKey(line, e) == q
  {
    RunEndIs(line, k, e);
    SkipSpaceIs(line, e + 1, q);
  }

  /** White space from `i` up to a quote at `w`, then the value and a closing quote. */
  lemma QuotedValue(line: string, i: nat, w: nat, value: string)
    requires i <= w && w + |value| + 1 < |line| && IsToken(value)
    requires AllSpace(line, i, w) && line[w] == '"' && line[w + 1 + |value|] == '"'
    requires line[w + 1 .. w + 1 + |value|] == value
    ensures ValueAt(line, i) == Some(value)
  {
    SkipSpaceIs(line, i, w);
    assert line[w + 1] == value[0];
    RunEndIs(line, w + 1, w + 1 + |value|);
  }

  /** White space after the `=` belongs to neither group: `KEY=<sp>VALUE`
      yields KEY with VALUE, so `ID= steamos` still reads `ID` as `steamos`. */
  lemma SpaceAfterEqualsSkipped(key: string, sp: string, value: string)
    requires IsPlainKey(key) && IsPlainValue(value) && IsBlank(sp)
    ensures LineEntry(key + "=" + sp + value) == Some(Entry(key, value))
  {
    var line := key + "=" + sp + value;
    var e := |key|;
    var w := e + 1 + |sp|;
    assert line[0] == key[0] && line[e] == '=' && line[w] == value[0];
    assert line[0 .. e] == key && line[w..] == value;
    assert AllSpace(line, e + 1, w) by {
      assert line[e + 1 .. w] == sp;
    }
    RunEndIs(line, 0, e);
    PlainValue(line, e + 1, w, value);
    MatchAtPositions(line, 0, 0, e, e);
    LineStartsMatch(line);
  }

  /** White space from `i` up to `w`, then an unquoted value to the end of the line. */
  lemma PlainValue(line: string, i: nat, w: nat, value: string)
    requires i <= w <= |line| && AllSpace(line, i, w) && IsPlainValue(value)
    requires line[w..] == value
    ensures ValueAt(line, i) == Some(value)
  {
    assert forall k :: w <= k < |line| ==> line[k] == value[k - w];
    SkipSpaceIs(line, i, w);
    RunEndIs(line, w, |line|);
    assert line[w .. |line|] == value;
  }

  /** The pattern keeps white space before `=` in the key: `ID = steamos`
      yields the key `"ID "`, not `"ID"`. */
  lemma SpaceBeforeEqualsStaysInKey()
    ensures LineEntry("ID = steamos") == Some(Entry("ID ", "steamos"))
  {
    var line := "ID = steamos";
    assert !IsWhiteSpace(line[0]);
    assert SkipSpace(line, 0) == 0;
    assert TrimStart(line) == line;
    RunEndIs(line, 0, 3);
    assert SkipSpace(line, 4) == 5 by {
      assert IsWhiteSpace(line[4]);
      assert SkipSpace(line, 5) == 5;
    }
    RunEndIs(line, 5, 12);
    assert line[0..3] == "ID ";
    assert line[5..12] == "steamos";
  }
}

=== FILE: os_variants.dfy ===
/**
 Classification of the running platform (`OSVariants.GetRuntimeOS`) and the
 Linux-like test (`OSVariants.IsLinuxLike`).

 The three `RuntimeInformation.IsOSPlatform` answers are a `PlatformFlags`
 value, and the outcome of reading `/etc/os-release` is an
 `Option<seq<string>>` (`None` when the read throws); both are inputs here.
 */
module OSVariants {
  import opened Wrappers
  import opened OSRelease

  /** The platforms the classification can return; `Unknown` is the
      `OSPlatform.Create("UNKNOWN")` result. */
  datatype Platform = Windows | OSX | Linux | SteamOS | SteamDeck | SteamRT | Unknown

  /** What `RuntimeInformation.IsOSPlatform` answers for Windows, OSX and Linux. */
  datatype PlatformFlags = PlatformFlags(isWindows: bool, isOSX: bool, isLinux: bool)

  /** The flags of a process that reports only Linux, the case the descriptor decides. */
  predicate OnlyLinux(flags: PlatformFlags) {
    !flags.isWindows && !flags.isOSX && flags.isLinux
  }

  /** `GetValueOrDefault`: the value under `key`, or nothing (`null`, which
      equals no string). */
  function Lookup(m: map<string, string>, key: string): (r: Option<string>)
    ensures r.Some? <==> key in m
    ensures r.Some? ==> r.value == m[key]
  {
    if key in m then Some(m[key]) else None
  }

  /** The Linux branch: the descriptor's `ID` and `VARIANT_ID` decide, and a
      parse that threw is caught and gives plain `Linux`. */
  function ClassifyLinux(release: Result<map<string, string>, ParseError>): (p: Platform)
    ensures release.Failure? ==> p == Linux
    ensures p in {Linux, SteamOS, SteamDeck, SteamRT}
  {
    match release
    case Failure(_) => Linux
    case Success(osRelease) =>
      if Lookup(osRelease, "ID") == Some("steamos") then
        if Lookup(osRelease, "VARIANT_ID") == Some("steamdeck") then SteamDeck else SteamOS
      else if Lookup(osRelease, "ID") == Some("steamrt") then SteamRT
      else Linux
  }

  /** `IsLinuxLike`: plain Linux and the three Steam variants. */
  function IsLinuxLike(p: Platform): (r: bool)
    ensures r <==> p != Windows && p != OSX && p != Unknown
  {
    p == Linux || p == SteamRT || p == SteamOS || p == SteamDeck
  }

  /** `GetRuntimeOS`. Windows wins over every other flag, then OSX; only a
      process reporting neither but Linux looks at the descriptor, and an
      unreadable descriptor never escapes as a failure. */
  function GetRuntimeOS(flags: PlatformFlags, osReleaseFile: Option<seq<string>>): (p: Platform)
    ensures flags.isWindows ==> p == Windows
    ensures !flags.isWindows && flags.isOSX ==> p == OSX
    ensures !flags.isWindows && !flags.isOSX && !flags.isLinux ==> p == Unknown
    ensures IsLinuxLike(p) <==> OnlyLinux(flags)
    ensures OnlyLinux(flags) && osReleaseFile.None? ==> p == Linux
  {
    if flags.isWindows then Windows
    else if flags.isOSX then OSX
    else if flags.isLinux then ClassifyLinux(ParseOSRelease(osReleaseFile))
    else Unknown
  }

  // ---------------------------------------------------------------------------
  // The classification stated against the descriptor's lines

  /** Some line of the descriptor reads `key` with `value`. */
  ghost predicate Says(es: seq<Entry>, key: string, value: string) {
    exists i :: 0 <= i < |es| && es[i] == Entry(key, value)
  }

  /** The platform a Linux descriptor with entries `es` stands for: a repeated
      key gives plain Linux; otherwise `ID=steamos` gives SteamDeck exactly
      when `VARIANT_ID=steamdeck` and SteamOS otherwise, `ID=steamrt` gives
      SteamRT, and anything else gives Linux. */
  ghost function DescribedPlatform(es: seq<Entry>): Platform {
    if !DistinctKeys(es) then Linux
    else if Says(es, "ID", "steamos") then
      if Says(es, "VARIANT_ID", "steamdeck") then SteamDeck else SteamOS
    else if Says(es, "ID", "steamrt") then SteamRT
    else Linux
  }

  /** With distinct keys, looking a key up in the parsed map finds exactly the
      value some line gives it. */
  lemma LookupSays(lines: seq<string>, key: string, value: string)
    requires DistinctKeys(Entries(lines))
    ensures ParseOSRelease(Some(lines)).Success?
    ensures Lookup(ParseOSRelease(Some(lines)).value, key) == Some(value) <==> Says(Entries(lines), key, value)
  {
    var es := Entries(lines);
    ParseMeaning(lines);
    var m := ParseOSRelease(Some(lines)).value;
    if Lookup(m, key) == Some(value) {
      assert key in KeysOf(es);
      var i :| 0 <= i < |es| && es[i].key == key;
      assert es[i] == Entry(key, value);
    }
    if Says(es, key, value) {
      var i :| 0 <= i < |es| && es[i] == Entry(key, value);
      assert m[es[i].key] == es[i].value;
    }
  }

  /** On a Linux-only process with a readable descriptor, the classification
      is the platform the descriptor's lines describe. */
  lemma LinuxClassification(flags: PlatformFlags, lines: seq<string>)
    requires OnlyLinux(flags)
    ensures GetRuntimeOS(flags, Some(lines)) == DescribedPlatform(Entries(lines))
  {
    var es := Entries(lines);
    ParseMeaning(lines);
    if DistinctKeys(es) {
      LookupSays(lines, "ID", "steamos");
      LookupSays(lines, "VARIANT_ID", "steamdeck");
      LookupSays(lines, "ID", "steamrt");
    }
  }

  /** Appending a line that repeats the key of an earlier line makes `Add`
      throw, whatever the earlier lines said: the result is plain Linux. */
  lemma RepeatedKeyGivesLinux(flags: PlatformFlags, lines: seq<string>, line: string)
    requires OnlyLinux(flags)
    requires LineEntry(line).Some? && LineEntry(line).value.key in KeysOf(Entries(lines))
    ensures GetRuntimeOS(flags, Some(lines + [line])) == Linux
  {
    var es := Entries(lines);
    var e := LineEntry(line).value;
    EntriesAppend(lines, [line]);
    assert [line][1..] == [];
    assert Entries([line]) == [e];
    var all := Entries(lines + [line]);
    assert all == es + [e];
    var i :| 0 <= i < |es| && es[i].key == e.key;
    assert all[i].key == all[|es|].key;
    LinuxClassification(flags, lines + [line]);
  }

  /** A descriptor of two lines reading `ID=steamos` and
      `VARIANT_ID=steamdeck` (in any spelling the pattern accepts, quoted or
      not) is classified as SteamDeck, but repeating its first line makes
      `Add` throw and the result falls back to plain Linux. */
  lemma RepeatedKeyDisablesSteamDetection(flags: PlatformFlags, idLine: string, variantLine: string)
    requires OnlyLinux(flags)
    requires LineEntry(idLine) == Some(Entry("ID", "steamos"))
    requires LineEntry(variantLine) == Some(Entry("VARIANT_ID", "steamdeck"))
    ensures GetRuntimeOS(flags, Some([idLine, variantLine])) == SteamDeck
    ensures GetRuntimeOS(flags, Some([idLine, variantLine, idLine])) == Linux
  {
    var lines := [idLine, variantLine];
    var good := [Entry("ID", "steamos"), Entry("VARIANT_ID", "steamdeck")];
    assert Entries(lines) == good by {
      assert lines[1..] == [variantLine];
      assert [variantLine][1..] == [];
    }
    assert DescribedPlatform(good) == SteamDeck by {
      assert Says(good, "ID", "steamos") by { assert good[0] == Entry("ID", "steamos"); }
      assert Says(good, "VARIANT_ID", "steamdeck") by { assert good[1] == Entry("VARIANT_ID", "steamdeck"); }
    }
    LinuxClassification(flags, lines);
    assert "ID" in KeysOf(good) by { assert good[0].key == "ID"; }
    RepeatedKeyGivesLinux(flags, lines, idLine);
    assert lines + [idLine] == [idLine, variantLine, idLine];
  }
}

=== FILE: refresh.dfy ===
/**
 The refresh and autosave state machine (`HarmonyPatches.UpdateValuesIfNeeded`,
 release build), run once per drawn frame.

 A countdown starts at 0. Each tick lowers it by one; while it stays positive
 nothing else happens. When it reaches 0 or below it restarts at 400, the
 previous cached fraction becomes `lastPercent`, a fresh reading is cached,
 and a save is triggered when the autosave threshold lies strictly between
 the new fraction (below) and the previous one (above).

 The battery reading (`SystemInfo.batteryLevel`, `SystemInfo.batteryStatus`)
 is an input of every tick, and the save is a flag in the result.
 */
module Refresh {

  /** Unity's `BatteryStatus`. */
  datatype BatteryStatus = Unknown | Charging | Discharging | NotCharging | Full

  /** One answer of the engine's battery query: a fraction in [0, 1], or a
      negative value when there is no battery. */
  datatype Reading = Reading(level: real, status: BatteryStatus)

  /** The four static fields the tick handler owns. */
  datatype RefreshState = RefreshState(
    timeToUpdate: int,
    cachedPercent: real,
    lastPercent: real,
    cachedStatus: BatteryStatus)

  /** What one tick returns: the next state and whether it saved the game. */
  datatype TickResult = TickResult(state: RefreshState, saveTriggered: bool)

  /** Ticks between two refreshes. */
  const RefreshInterval: int := 400

  /** The state the static constructor sets up: a first reading cached, the
      countdown at 0, and `lastPercent` at the default float, zero. */
  function Initial(first: Reading): (s: RefreshState)
    ensures s.cachedPercent == first.level && s.cachedStatus == first.status
    ensures s.timeToUpdate == 0 && s.lastPercent == 0.0
    ensures CountdownInRange(s) && Refreshes(s)
  {
    RefreshState(0, first.level, 0.0, first.status)
  }

  /** The countdown stays within the range it is reset to, so the 32-bit
      counter of the source can never wrap around. */
  predicate CountdownInRange(s: RefreshState) {
    0 <= s.timeToUpdate <= RefreshInterval
  }

  /** This tick refreshes: the decremented countdown is no longer positive. */
  predicate Refreshes(s: RefreshState) {
    s.timeToUpdate - 1 <= 0
  }

  /** The edge test of the autosave at HarmonyPatches.cs:60-61: the threshold
      is strictly above the new fraction and strictly below the previous one. */
  predicate CrossesDown(autosaveOn: real, previous: real, current: real) {
    autosaveOn > current && autosaveOn < previous
  }

  /** One call of `UpdateValuesIfNeeded` with the engine's current reading and
      the current autosave threshold. */
  function UpdateValuesIfNeeded(s: RefreshState, reading: Reading, autosaveOn: real): (o: TickResult)
    ensures CountdownInRange(s) ==> CountdownInRange(o.state) && o.state.timeToUpdate >= 1
    ensures o.saveTriggered ==> Refreshes(s) && o.state.cachedPercent < autosaveOn
    ensures !Refreshes(s) ==> !o.saveTriggered && o.state == s.(timeToUpdate := s.timeToUpdate - 1)
  {
    var timeToUpdate := s.timeToUpdate - 1;
    if timeToUpdate > 0 then
      TickResult(s.(timeToUpdate := timeToUpdate), false)
    else
      var last := s.cachedPercent;
      var next := RefreshState(RefreshInterval, reading.level, last, reading.status);
      TickResult(next, CrossesDown(autosaveOn, last, reading.level))
  }

  /** A refreshing tick restarts the countdown at 400, hands the old cached
      fraction to `lastPercent` before caching the new reading, and saves
      exactly when the threshold is crossed downwards between the two. */
  lemma RefreshingTick(s: RefreshState, reading: Reading, autosaveOn: real)
    requires Refreshes(s)
    ensures var o := UpdateValuesIfNeeded(s, reading, autosaveOn);
            && o.state.timeToUpdate == RefreshInterval
            && o.state.lastPercent == s.cachedPercent
            && o.state.cachedPercent == reading.level
            && o.state.cachedStatus == reading.status
            && (o.saveTriggered <==> s.cachedPercent > autosaveOn > reading.level)
  {
  }

  /** Both tests are strict: a refresh whose previous or new fraction sits
      exactly on the threshold never saves, so a battery that steps
      26 % -> 25 % -> 24 % through a 25 % threshold is never saved for. */
  lemma ExactThresholdNeverSaves(s: RefreshState, reading: Reading, autosaveOn: real)
    requires s.cachedPercent == autosaveOn || reading.level == autosaveOn
    ensures !UpdateValuesIfNeeded(s, reading, autosaveOn).saveTriggered
  {
  }

  // ---------------------------------------------------------------------------
  // Traces of n ticks

  /** What one tick is given: the engine's battery reading and the autosave
      threshold as the settings hold it at that moment (the settings window
      can change it between any two ticks). */
  datatype Tick = Tick(reading: Reading, autosaveOn: real)

  /** The state after the first `n` of `ticks`. */
  function StateAfter(s: RefreshState, ticks: seq<Tick>, n: nat): RefreshState
    requires n <= |ticks|
  {
    if n == 0 then s
    else UpdateValuesIfNeeded(StateAfter(s, ticks, n - 1), ticks[n - 1].reading, ticks[n - 1].autosaveOn).state
  }

  /** Tick `i` (counting from 0) saved the game. */
  predicate SavedAt(s: RefreshState, ticks: seq<Tick>, i: nat)
    requires i < |ticks|
  {
    UpdateValuesIfNeeded(StateAfter(s, ticks, i), ticks[i].reading, ticks[i].autosaveOn).saveTriggered
  }

  /** Tick `i` (counting from 0) refreshed. */
  predicate RefreshedAt(s: RefreshState, ticks: seq<Tick>, i: nat)
    requires i < |ticks|
  {
    Refreshes(StateAfter(s, ticks, i))
  }

  /** How many of the first `n` ticks refreshed. */
  function RefreshCount(s: RefreshState, ticks: seq<Tick>, n: nat): nat
    requires n <= |ticks|
  {
    if n == 0 then 0
    else RefreshCount(s, ticks, n - 1) + (if RefreshedAt(s, ticks, n - 1) then 1 else 0)
  }

  /** Every state reachable from a countdown in range keeps it in range. */
  lemma {:induction false} CountdownStaysInRange(s: RefreshState, ticks: seq<Tick>, n: nat)
    requires CountdownInRange(s) && n <= |ticks|
    ensures CountdownInRange(StateAfter(s, ticks, n))
  {
    if n > 0 {
      CountdownStaysInRange(s, ticks, n - 1);
    }
  }

  /** Stepping `m` to `m + 1` in the refresh arithmetic below. */
  lemma StepInterval(m: int)
    requires m >= 0
    ensures m % RefreshInterval == RefreshInterval - 1 ==>
              (m + 1) / RefreshInterval == m / RefreshInterval + 1 && (m + 1) % RefreshInterval == 0
    ensures m % RefreshInterval != RefreshInterval - 1 ==>
              (m + 1) / RefreshInterval == m / RefreshInterval && (m + 1) % RefreshInterval == m % RefreshInterval + 1
  {
  }

  /** The countdown and the refresh count after `n` ticks from a countdown
      `t` in range: the first refresh comes on tick max(t, 1), and one every
      `RefreshInterval` ticks after it, whatever the readings and thresholds. */
  lemma {:induction false} CountdownSchedule(s: RefreshState, ticks: seq<Tick>, n: nat)
    requires CountdownInRange(s) && n <= |ticks|
    ensures var first := if s.timeToUpdate < 1 then 1 else s.timeToUpdate;
            var after := StateAfter(s, ticks, n);
            if n < first then
              after.timeToUpdate == s.timeToUpdate - n && RefreshCount(s, ticks, n) == 0
            else
              after.timeToUpdate == RefreshInterval - (n - first) % RefreshInterval
              && RefreshCount(s, ticks, n) == (n - first) / RefreshInterval + 1
  {
    if n > 0 {
      CountdownSchedule(s, ticks, n - 1);
      var first := if s.timeToUpdate < 1 then 1 else s.timeToUpdate;
      if n > first {
        StepInterval(n - 1 - first);
      }
    }
  }

  /** From the initial countdown 0 the first tick refreshes and every
      `RefreshInterval`th (400th) tick after it: n ticks perform
      (n + 399) / 400 refreshes. */
  lemma RefreshCountFromStart(first: Reading, ticks: seq<Tick>, n: nat)
    requires n <= |ticks|
    ensures RefreshCount(Initial(first), ticks, n) == (n + RefreshInterval - 1) / RefreshInterval
  {
    CountdownSchedule(Initial(first), ticks, n);
  }

  /** Between two refreshes the cached fraction is the one the earlier
      refresh read. */
  lemma {:induction false} CachedSinceRefresh(s: RefreshState, ticks: seq<Tick>, i: nat, n: nat)
    requires i < n <= |ticks|
    requires RefreshedAt(s, ticks, i)
    requires forall k :: i < k < n ==> !RefreshedAt(s, ticks, k)
    ensures StateAfter(s, ticks, n).cachedPercent == ticks[i].reading.level
  {
    if n > i + 1 {
      CachedSinceRefresh(s, ticks, i, n - 1);
      assert !RefreshedAt(s, ticks, n - 1);
    }
  }

  /** At a refresh that follows an earlier refresh with none between them,
      the game is saved exactly when the current threshold lies strictly
      between the two readings. A save at the earlier refresh therefore does
      not prevent a second one when the threshold was lowered below the
      earlier reading in the meantime. */
  lemma SaveAfterRefresh(s: RefreshState, ticks: seq<Tick>, i: nat, j: nat)
    requires i < j < |ticks|
    requires RefreshedAt(s, ticks, i) && RefreshedAt(s, ticks, j)
    requires forall k :: i < k < j ==> !RefreshedAt(s, ticks, k)
    ensures SavedAt(s, ticks, j) <==> ticks[i].reading.level > ticks[j].autosaveOn > ticks[j].reading.level
  {
    CachedSinceRefresh(s, ticks, i, j);
  }

  /** After a save the cached fraction stays below any bound at or above the
      threshold of that save, until some refresh reads a fraction above the
      bound; thresholds of the ticks in between play no part. */
  lemma {:induction false} StaysDisarmed(s: RefreshState, ticks: seq<Tick>, bound: real, i: nat, n: nat)
    requires i < n <= |ticks|
    requires SavedAt(s, ticks, i) && ticks[i].autosaveOn <= bound
    requires forall k :: i < k < n ==> !(RefreshedAt(s, ticks, k) && ticks[k].reading.level > bound)
    ensures StateAfter(s, ticks, n).cachedPercent <= bound
  {
    if n > i + 1 {
      StaysDisarmed(s, ticks, bound, i, n - 1);
      assert !(RefreshedAt(s, ticks, n - 1) && ticks[n - 1].reading.level > bound);
    }
  }

  /** Between two saves whose thresholds did not go down, the battery must
      have been read above the later threshold again: some refresh strictly
      between them read a fraction above it. So with a threshold that is
      never lowered, a falling battery saves at most once per crossing. */
  lemma SaveNeedsRecharge(s: RefreshState, ticks: seq<Tick>, i: nat, j: nat)
    requires i < j < |ticks|
    requires SavedAt(s, ticks, i) && SavedAt(s, ticks, j)
    requires ticks[i].autosaveOn <= ticks[j].autosaveOn
    ensures exists k :: i < k < j && RefreshedAt(s, ticks, k) && ticks[k].reading.level > ticks[j].autosaveOn
  {
    if !exists k :: i < k < j && RefreshedAt(s, ticks, k) && ticks[k].reading.level > ticks[j].autosaveOn {
      StaysDisarmed(s, ticks, ticks[j].autosaveOn, i, j);
    }
  }

  /** Two refreshes with no refresh between them never both save, unless the
      threshold was lowered between them. */
  lemma NoSaveOnConsecutiveRefreshes(s: RefreshState, ticks: seq<Tick>, i: nat, j: nat)
    requires i < j < |ticks|
    requires forall k :: i < k < j ==> !RefreshedAt(s, ticks, k)
    requires ticks[i].autosaveOn <= ticks[j].autosaveOn
    ensures !(SavedAt(s, ticks, i) && SavedAt(s, ticks, j))
  {
    if SavedAt(s, ticks, i) && SavedAt(s, ticks, j) {
      SaveNeedsRecharge(s, ticks, i, j);
    }
  }
}

=== FILE: settings.dfy ===
/**
 The mod's settings record (`LaptopBatteryStatusSettings`): the three
 thresholds, compared against a battery fraction in [0, 1], and the two
 colouring switches.
 */
module BatterySettings {
  import opened Wrappers

  /** The five persisted settings. Thresholds are fractions of a full battery. */
  datatype Settings = Settings(
    warningOn: real,
    criticalOn: real,
    autosaveOn: real,
    greenCharging: bool,
    grayFull: bool)

  /** The field initialisers of a fresh settings object. `AutosaveOn` has no
      initialiser and starts at the default float, zero. */
  const Defaults := Settings(0.25, 0.1, 0.0, true, true)

  /** The range the warning and critical sliders offer. */
  predicate InThresholdRange(x: real) {
    0.01 <= x <= 1.0
  }

  /** The relation the settings window maintains between the two thresholds,
      with both inside their slider range. */
  predicate WellOrdered(s: Settings) {
    s.criticalOn <= s.warningOn && InThresholdRange(s.warningOn) && InThresholdRange(s.criticalOn)
  }

  /** What a settings file holds for each key: `None` when the key is absent. */
  datatype Stored = Stored(
    warningOn: Option<real>,
    criticalOn: Option<real>,
    autosaveOn: Option<real>,
    greenCharging: Option<bool>,
    grayFull: Option<bool>)

  /** A settings file without any of the five keys. */
  const NothingStored := Stored(None, None, None, None, None)

  /** A settings file holding every field of `s`. */
  function StoredFrom(s: Settings): (st: Stored)
    ensures st.warningOn.Some? && st.criticalOn.Some? && st.autosaveOn.Some?
    ensures st.greenCharging.Some? && st.grayFull.Some?
  {
    Stored(Some(s.warningOn), Some(s.criticalOn), Some(s.autosaveOn), Some(s.greenCharging), Some(s.grayFull))
  }

  /** `ExposeData` while loading: every `Scribe_Values.Look` takes the stored
      value when the key is present and its own fallback otherwise. */
  function Load(st: Stored): (r: Settings)
    ensures r.warningOn == st.warningOn.GetOr(Defaults.warningOn)
    ensures r.criticalOn == st.criticalOn.GetOr(Defaults.criticalOn)
    ensures r.autosaveOn == st.autosaveOn.GetOr(Defaults.autosaveOn)
    ensures r.greenCharging == st.greenCharging.GetOr(Defaults.greenCharging)
    ensures r.grayFull == st.grayFull.GetOr(Defaults.grayFull)
  {
    Settings(
      st.warningOn.GetOr(0.25),
      st.criticalOn.GetOr(0.1),
      st.autosaveOn.GetOr(0.0),
      st.greenCharging.GetOr(true),
      st.grayFull.GetOr(true))
  }

  /** The defaults are 25 % warning, 10 % critical, autosave off (0), and
      both colouring switches on; they already satisfy the window's ordering. */
  lemma DefaultsAreOrdered()
    ensures Defaults.warningOn == 0.25 && Defaults.criticalOn == 0.1 && Defaults.autosaveOn == 0.0
    ensures Defaults.grayFull && Defaults.greenCharging
    ensures WellOrdered(Defaults)
  {
  }

  /** The load-time fallbacks equal the field initialisers for all five
      fields, so a missing file loads the defaults. */
  lemma LoadFallbackIsDefaults()
    ensures Load(NothingStored) == Defaults
  {
  }

  /** A stored value always wins over the fallback: loading a file that holds
      every field gives those fields back. */
  lemma LoadStoredRoundTrip(s: Settings)
    ensures Load(StoredFrom(s)) == s
  {
  }
}

=== FILE: settings_window.dfy ===
/**
 The settings window (`LaptopBatteryStatusMod.DoSettingsWindowContents`),
 reduced to what it does to the settings record: three sliders, two clamps
 between the warning and critical thresholds, and two checkboxes.

 A slider is an input: either the user leaves it alone and it returns the
 value it was shown, or it returns some value the user dragged to. A
 checkbox toggles its field when clicked.
 */
module SettingsWindow {
  import opened BatterySettings

  /** What one slider does this frame. */
  datatype Slider = Keep | Drag(to: real)

  /** What the user does in one pass over the window. */
  datatype WindowInput = WindowInput(
    warning: Slider,
    critical: Slider,
    autosave: Slider,
    greenChargingClicked: bool,
    grayFullClicked: bool)

  /** The input of a pass in which the user touches nothing. */
  const Idle := WindowInput(Keep, Keep, Keep, false, false)

  /** The value `Widgets.HorizontalSlider` returns when shown `current`. */
  function SliderResult(slider: Slider, current: real): real {
    match slider
    case Keep => current
    case Drag(v) => v
  }

  /** The value `CheckboxLabeled` leaves in its field. */
  function CheckboxResult(clicked: bool, current: bool): bool {
    if clicked then !current else current
  }

  /** The first clamp, `Min(CriticalOn, WarningOn)`: it can only lower the
      critical threshold, and only down to the warning threshold. */
  function ClampCritical(critical: real, warning: real): (r: real)
    ensures r <= warning && r <= critical
    ensures r == critical || r == warning
  {
    if critical <= warning then critical else warning
  }

  /** The second clamp, `Max(CriticalOn, WarningOn)`: it can only raise the
      warning threshold, and only up to the critical threshold. */
  function RaiseWarning(critical: real, warning: real): (r: real)
    ensures r >= warning && r >= critical
    ensures r == warning || r == critical
  {
    if critical >= warning then critical else warning
  }

  /** One pass over the window, in the order the source runs it. Whatever the
      sliders return, the critical threshold ends at or below the warning
      threshold; autosave and the switches are set by their own controls only. */
  function DoSettingsWindowContents(s: Settings, input: WindowInput): (r: Settings)
    ensures r.criticalOn <= r.warningOn
    ensures r.autosaveOn == SliderResult(input.autosave, s.autosaveOn)
    ensures r.greenCharging <==> (s.greenCharging != input.greenChargingClicked)
    ensures r.grayFull <==> (s.grayFull != input.grayFullClicked)
  {
    var warning1 := SliderResult(input.warning, s.warningOn);
    var critical1 := ClampCritical(s.criticalOn, warning1);
    var critical2 := SliderResult(input.critical, critical1);
    var warning2 := RaiseWarning(critical2, warning1);
    var autosave := SliderResult(input.autosave, s.autosaveOn);
    Settings(
      warning2,
      critical2,
      autosave,
      CheckboxResult(input.greenChargingClicked, s.greenCharging),
      CheckboxResult(input.grayFullClicked, s.grayFull))
  }

  /** If both sliders return values in [0.01, 1] (a slider left alone
      returns the value it was shown, the critical one after the first
      clamp), the window leaves the settings well ordered, whatever the
      loaded thresholds were. */
  lemma WindowKeepsThresholdsInRange(s: Settings, input: WindowInput)
    requires InThresholdRange(SliderResult(input.warning, s.warningOn))
    requires InThresholdRange(SliderResult(input.critical,
      ClampCritical(s.criticalOn, SliderResult(input.warning, s.warningOn))))
    ensures WellOrdered(DoSettingsWindowContents(s, input))
  {
  }

  /** The threshold that was not dragged is the one a clamp moves: a dragged
      critical value above the warning threshold pulls the warning up to it,
      and it is never pulled down. */
  lemma CriticalDragWins(s: Settings, input: WindowInput)
    requires input.critical.Drag?
    ensures DoSettingsWindowContents(s, input).criticalOn == input.critical.to
    ensures DoSettingsWindowContents(s, input).warningOn
         == RaiseWarning(input.critical.to, SliderResult(input.warning, s.warningOn))
  {
  }

  /** A pass in which nothing is touched changes nothing on settings that are
      already ordered, and otherwise only lowers the critical threshold to the
      warning threshold. */
  lemma IdleWindowNormalises(s: Settings)
    ensures DoSettingsWindowContents(s, Idle) == s.(criticalOn := ClampCritical(s.criticalOn, s.warningOn))
    ensures s.criticalOn <= s.warningOn ==> DoSettingsWindowContents(s, Idle) == s
  {
  }

  /** Running the window twice without touching it changes nothing the
      second time. */
  lemma IdleWindowIdempotent(s: Settings)
    ensures DoSettingsWindowContents(DoSettingsWindowContents(s, Idle), Idle)
         == DoSettingsWindowContents(s, Idle)
  {
  }

  /** The threshold sliders never reach the autosave threshold or the
      switches: two passes that differ only in those sliders agree on them. */
  lemma ThresholdSlidersLeaveOthersAlone(s: Settings, input: WindowInput, warning: Slider, critical: Slider)
    ensures var r := DoSettingsWindowContents(s, input);
            var r' := DoSettingsWindowContents(s, input.(warning := warning, critical := critical));
            r.autosaveOn == r'.autosaveOn && r.greenCharging == r'.greenCharging && r.grayFull == r'.grayFull
  {
  }
}

=== FILE: wrappers.dfy ===
/** Optional values and success-or-error results, shared by the other modules. */
module Wrappers {

  /** A value that may be absent: an unreadable file, a missing dictionary key. */
  datatype Option<+T> = None | Some(value: T) {

    /** The value, or `default` when there is none. */
    function GetOr(default: T): (r: T)
      ensures Some? ==> r == value
      ensures None? ==> r == default
    {
      match this
      case Some(v) => v
      case None => default
    }
  }

  /** The outcome of an operation that may throw: `Failure` carries what was thrown. */
  datatype Result<+R, +E> = Success(value: R) | Failure(error: E)
}
